=== FILE: README.md ===
# Immobilier Info: chat widget and tools calculators

This project is a Dafny model of two parts of the Immobilier Info real-estate site.

The chat widget keeps a conversation log in a floating window. A visitor can:
- type a message and send it with the Enter key or the send button; it goes to an
  assistant service together with a language-specific instruction;
- click a quick reply, which navigates when it names a site section and otherwise
  refills the draft;
- use the four fixed quick-action buttons;
- open and close the window.

The tools page holds two calculators: the fixed-rate mortgage payment and the rental
return on investment (ROI). Each one updates an optional result only when its guard
holds.

Files:
- `optional.dfy`: the `Option` type.
- `text.dfy`: ECMAScript `trim`, the leading `"- "` bullet strip, and line splitting
  and joining.
- `sitemap.dfy`: the languages and the constant tables. These are the greetings, the
  failure texts, the quick-reply headers, the bulleted section list, the
  label-to-path route table and the quick-action buttons.
- `chat.dfy`: the widget's session as a state machine. Sending is split in two:
  - `BeginSend` appends the user turn and issues a request;
  - `CompleteSend` appends the service's answer, or the localized failure notice.

  `Step` dispatches every event, and `Run` replays a trace of events.
- `finance.dfy`: exact-real models of `calculateMortgage` and `calculateROI`. It also
  defines a month-by-month loan balance as an independent reference for the payment
  formula.
- `tools.dfy`: the tools page state and its actions.

The service call, message ids and the page language are inputs to the model:
- each send suspends until its call to the service settles. The session records the
  calls still out, and the outcome arrives as the event `ReplyArrived`. That event
  names the call it settles and carries `Success(text)` or `Failure`. A failure
  notice uses the language the call was sent in;
- ids are opaque strings that the caller supplies;
- the language is a parameter of each event that reads it.

Only the send button checks the loading flag (ChatBot.tsx:233). The Enter handler
(ChatBot.tsx:227) calls the send routine with no such check, so a second message can
be sent before the first reply arrives, and two calls can be out at once. The first
of them to settle lowers the loading flag (ChatBot.tsx:98-100) while the other is
still out. `Chat.EnterIgnoresLoading`, `Chat.DoubleSend` and `Chat.LoadingClearedEarly`
state this behaviour.

The section list the assistant is told to echo (ChatBot.tsx:52-54) names privacy and
terms. The route table (ChatBot.tsx:106-113) has no labels for them, so clicking those
entries only refills the draft (`Chat.NavEntryClick`).

## Model

| member | source | states |
|---|---|---|
| Text.Trim | components/ChatBot.tsx:116 | the trimmed text is the piece of the input between a blank head and a blank tail, and has no white space at either end |
| Text.TrimEmptyIffBlank | components/ChatBot.tsx:40 | `input.trim()` is empty exactly when every character of the input is white space, so the send guard refuses exactly the blank drafts |
| Text.TrimIdempotent | components/ChatBot.tsx:116 | trimming a trimmed label changes nothing |
| Text.StripBullet | components/ChatBot.tsx:116 | `replace(/^- /, '')` either removes one leading `"- "` or returns the text unchanged, and it returns the text unchanged only when the text does not start with the marker |
| Text.StripBulletOnce | components/ChatBot.tsx:116 | exactly one marker is removed; a doubled marker keeps its second copy |
| Text.CleanLabel | components/ChatBot.tsx:116 | the cleaned quick-reply label is the text after the marker strip less a blank head and a blank tail, and has no white space at its ends |
| Text.CleanBulleted | components/ChatBot.tsx:116 | a bulleted entry whose text has no white space at its ends cleans back to that text |
| Text.CleanPlain | components/ChatBot.tsx:116 | a label with no white space at its ends and no leading dash is its own cleaned form, with or without a bullet in front |
| Text.IndentedBulletKept | components/ChatBot.tsx:116 | the marker is stripped before trimming, so an indented `" - X"` cleans to `"- X"` with its dash kept |
| Text.SplitJoinLines | components/ChatBot.tsx:52-54 | splitting at line feeds undoes joining with line feeds when no line contains one |
| Sitemap.Lang.Code | components/ChatBot.tsx:64 | the language code written into the instruction: `ar`, `en` or `fr` |
| Sitemap.Greeting | components/ChatBot.tsx:30-34 | the greeting text of each language |
| Sitemap.QuickReplyHeader | components/ChatBot.tsx:57-61 | the quick-reply header of each language |
| Sitemap.SectionNames | components/ChatBot.tsx:52-54 | the seven section names of each language, in the order of the list |
| Sitemap.NavTerms | components/ChatBot.tsx:52-54 | the list of each language: its bulleted entries joined by line feeds |
| Sitemap.Routes | components/ChatBot.tsx:106-113 | the seventeen label-to-path entries of the route table |
| Sitemap.ActionLabel | components/ChatBot.tsx:200-205 | the caption of each quick-action button in each language |
| Sitemap.ActionPath | components/ChatBot.tsx:207 | the path each quick-action button navigates to |
| Sitemap.ErrorText | components/ChatBot.tsx:96 | the failure notice is the Arabic text exactly for Arabic, and the English text for every other language, French included |
| Sitemap.Bulleted | components/ChatBot.tsx:52-54 | each entry of the list is the bullet marker followed by the section name at the same position |
| Sitemap.Route | components/ChatBot.tsx:117 | `routes[cleanText]` read as a condition hits only on a key of the table, and then yields that key's path |
| Sitemap.RouteHitIffKey | components/ChatBot.tsx:106-117 | every path in the table is truthy, so a lookup hits exactly when the label is a key |
| Sitemap.RouteKeysShape | components/ChatBot.tsx:106-113 | every label of the table is non-empty, has no white space at its ends, does not start with a dash, and has a non-empty path |
| Sitemap.RouteKeysAreClean | components/ChatBot.tsx:106-117 | every label of the table, bare or bulleted, cleans to itself and routes to its own path |
| Sitemap.SectionNamesTrimmed | components/ChatBot.tsx:52-54 | no section name in any language has white space at its ends |
| Sitemap.SectionNamesSingleLine | components/ChatBot.tsx:52-54 | no section name contains a line feed |
| Sitemap.NavTermsLines | components/ChatBot.tsx:52-54 | the list string of each language, split at line feeds, gives back exactly the seven bulleted entries |
| Sitemap.SectionRoutes | components/ChatBot.tsx:52-113 | each language lists seven sections; home, countries, cities, blog and about route to the same five paths in every language, and privacy and terms are not labels of the table |
| Sitemap.NavLinesRouting | components/ChatBot.tsx:52-117 | clicking entry `i` of the list cleans it to the section name; the first five entries route to their section's path and the last two find no route |
| Sitemap.QuickActionRow | components/ChatBot.tsx:199-207 | the button row holds Home, Countries, Blog and Contact, each once. Every caption of the row, in every language, is a table label mapped to its button's path |
| Sitemap.ActionLabelsInRoutes | components/ChatBot.tsx:199-207 | every quick-action caption, in every language, is a label of the route table and maps to the path of its button |
| Sitemap.ActionLabelsRouteAlike | components/ChatBot.tsx:199-212 | a button's caption, clicked as a quick reply, routes where the button itself navigates |
| Chat.Instruction | components/ChatBot.tsx:63-69 | the instruction holds the line `Current Language: <code>.` with the language's own code, and embeds that language's quick-reply header and its bulleted section list |
| Chat.InstructionPerLanguage | components/ChatBot.tsx:63-69 | two languages get the same instruction only when they are the same language |
| Chat.SeedGreeting | components/ChatBot.tsx:28-37 | an empty log receives exactly the greeting of the current language with id `init`; a non-empty log is left as it is; the result is never empty, the old log is a prefix of it, and the draft, the flags and the calls out are kept |
| Chat.GreetingSeededOnce | components/ChatBot.tsx:28-37 | seeding again, in any language, adds nothing |
| Chat.GreetingStaysFirst | components/ChatBot.tsx:28-37 | the first message of a non-empty log stays first through any trace |
| Chat.Initial | components/ChatBot.tsx:16-19 | the state at mount: an empty log, an empty draft, not loading, closed, and no call out |
| Chat.MountedWidgetGreets | components/ChatBot.tsx:16-37 | a freshly mounted widget's log starts with the greeting of the page language, and it stays first through any trace |
| Chat.BeginSend | components/ChatBot.tsx:39-45 | a blank draft changes nothing and sends nothing; otherwise the untrimmed draft is appended as a user turn, the draft is cleared, loading is raised and a request with the same text is issued |
| Chat.CompleteSend | components/ChatBot.tsx:85-100 | exactly one model turn is appended. It holds the reply text on success. On failure it holds the Arabic notice exactly when the send was in Arabic and the English notice exactly otherwise. Loading is lowered, and the draft, the open flag and the calls out are untouched |
| Chat.ReplyAnswersCall | components/ChatBot.tsx:81-100 | a reply settles the call it names: it appends the reply, or the failure notice in the language of that call's send. The call is no longer out and loading is lowered |
| Chat.ReplyWithoutCallIgnored | components/ChatBot.tsx:81-100 | a reply naming no call that is out changes nothing, so no model answer enters the log unasked |
| Chat.LoadingMeansCallOut | components/ChatBot.tsx:42-100 | over any trace, while the loading flag is up some call is out |
| Chat.StepLoadingHasCall | components/ChatBot.tsx:42-100 | one event keeps the loading flag backed by a call that is out |
| Chat.LoadingClearedEarly | components/ChatBot.tsx:98-100 | after two Enter sends, the first reply lowers the loading flag while the second call is still out, so typing a non-blank draft enables the send button again |
| Chat.StepCallsFromRequests | components/ChatBot.tsx:39-100 | every call out after one event was out before it or is the request the event issues, counted with multiplicity |
| Chat.CallsWereRequested | components/ChatBot.tsx:39-100 | over any trace, every call out at the end was out at the start or was requested during the trace, counted with multiplicity |
| Chat.SendEnabled | components/ChatBot.tsx:233 | the send button's enabled condition, the negation of its `disabled` expression |
| Chat.SendEnabledIff | components/ChatBot.tsx:233 | the send button is enabled exactly when not loading and the draft is not blank |
| Chat.EnterIgnoresLoading | components/ChatBot.tsx:227-233 | while loading, the button does nothing, but Enter still appends a user turn and issues a request |
| Chat.EnterSends | components/ChatBot.tsx:227 | in the open window, Enter with a non-blank draft always sends, whatever the loading flag |
| Chat.DoubleSend | components/ChatBot.tsx:227 | two Enter sends with no reply in between issue two requests and append two consecutive user turns |
| Chat.SendClickedSends | components/ChatBot.tsx:231-233 | in the open window, a click on the enabled send button sends exactly as Enter does, requesting the draft's text |
| Chat.LanguageSeenSeeds | components/ChatBot.tsx:28-37 | the language effect seeds the greeting, open window or not |
| Chat.ToggleClickedToggles | components/ChatBot.tsx:141 | the toggle button toggles, open window or not |
| Chat.QuickReplyClickedRuns | components/ChatBot.tsx:103-124 | a quick-reply click runs the quick-reply handler and performs the navigation it chooses |
| Chat.BlankDraftIgnored | components/ChatBot.tsx:40 | a blank draft is refused by both Enter and the button, with no change at all |
| Chat.QuickReply | components/ChatBot.tsx:103-124 | the cleaned label navigates to its path and closes the widget when it is a table key; otherwise it becomes the draft, with nothing sent, no navigation and the open flag unchanged; the log is never touched |
| Chat.TableLabelNavigates | components/ChatBot.tsx:117-119 | a table label clicked as written navigates to its own path and closes the widget |
| Chat.FreeTextBecomesDraft | components/ChatBot.tsx:120-121 | free text that is not a label, has no white space at its ends and no leading dash becomes the draft unchanged |
| Chat.NavEntryClick | components/ChatBot.tsx:103-124 | every entry of the echoed list navigates and closes the widget, except privacy and terms, whose clicks only refill the draft with the section name |
| Chat.QuickActionClick | components/ChatBot.tsx:212 | a quick-action button navigates to a path of the route table and closes the widget, with the log and the draft unchanged |
| Chat.QuickActionIsQuickReply | components/ChatBot.tsx:199-212 | clicking a button does exactly what clicking its caption as a quick reply does, in every language |
| Chat.Toggle | components/ChatBot.tsx:141 | the toggle flips the open flag and changes nothing else: the log, the draft, the loading flag and the calls out are kept, so closing the widget cancels no call |
| Chat.ToggleTwice | components/ChatBot.tsx:141 | toggling twice restores the session |
| Chat.Step | components/ChatBot.tsx:141-233 | no event removes or rewrites a message, and none adds more than one. A request comes only from Enter or the send button, and its text is the user turn appended. A message appended without a request is a model turn. A navigation always leaves the widget closed |
| Chat.ClosedWindowIgnoresControls | components/ChatBot.tsx:150 | the input box, the send button and the quick-action buttons exist only while the window is open, so with the window closed their events change nothing |
| Chat.LogAppendOnly | components/ChatBot.tsx:28-100 | over any trace of events the old log stays a prefix of the new one |
| Chat.StepUserTexts | components/ChatBot.tsx:39-100 | one event adds to the user turns exactly the text of the request it issues |
| Chat.UserTurnsAreRequests | components/ChatBot.tsx:42-81 | over any trace, the user turns added are exactly the texts of the requests issued, in the same order |
| Finance.Pow | components/Tools.tsx:28 | `Math.pow` for a whole-number exponent, as repeated multiplication |
| Finance.MonthlyRate | components/Tools.tsx:24 | the monthly rate times 1200 is the yearly percentage |
| Finance.Payments | components/Tools.tsx:25 | there is at least one payment exactly when the term is at least one year |
| Finance.MortgageAppliesIff | components/Tools.tsx:27 | the guard holds exactly when the principal and the yearly rate are positive and the term is at least a year |
| Finance.PowAboveOne | components/Tools.tsx:28 | a growth factor above one raised to a positive power is at least the factor, so the formula's divisor `x - 1` is positive |
| Finance.Payment | components/Tools.tsx:28-29 | the payment is larger than the first month's interest |
| Finance.PaymentTimesDivisor | components/Tools.tsx:28-29 | the payment solves `pay·(x − 1) = p·x·i` |
| Finance.CalculateMortgage | components/Tools.tsx:22-32 | when the guard fails, the previous result is kept. Otherwise the result is the annuity payment: it solves the annuity equation, exceeds the first month's interest, and leaves a zero balance after the last payment |
| Finance.BalanceClosedForm | components/Tools.tsx:28-29 | the month-by-month balance satisfies `i·b = i·p·x − pay·(x − 1)` with `x = (1 + i)^k` |
| Finance.PaymentAmortizes | components/Tools.tsx:28-29 | the formula's payment pays the loan off exactly at the last month |
| Finance.PayOffIff | components/Tools.tsx:28-29 | the formula's payment is the one and only monthly amount that leaves a zero balance after the last month |
| Finance.ZeroRateKeepsPrevious | components/Tools.tsx:27 | a zero rate gives no new result, and whatever was shown stays |
| Finance.CalculateRoi | components/Tools.tsx:34-40 | with a positive price, the result times the price is 100 times rent less expenses; otherwise the previous result is kept |
| Finance.RoiSign | components/Tools.tsx:36-37 | the ROI is negative, zero or positive exactly as the rent is below, equal to or above the expenses |
| Finance.DefaultRoi | components/Tools.tsx:17-19 | the default figures give an ROI of 20/3 percent |
| Tools.Initial | components/Tools.tsx:11-20 | the page at mount: a loan of 200000 at 3.5 percent over 25 years, a price of 150000, a rent of 12000, expenses of 2000, and no results |
| Tools.Apply | components/Tools.tsx:22-144 | typing sets its own input to the typed value and keeps every other input and both results. A calculate button keeps every input, changes only its own result, and computes it from its own calculator's inputs and previous result. A shown result is never cleared |
| Tools.ClickReadsOwnInputs | components/Tools.tsx:22-40 | a calculate button's result depends only on its own calculator's inputs and previous result, not on the other calculator |
| Tools.ResultsNeverRevert | components/Tools.tsx:14-38 | once shown, a result stays shown for the rest of any sequence of actions |
| Tools.PaymentStaysPositive | components/Tools.tsx:27-30 | every monthly payment ever shown is positive |
| Tools.ClickTwice | components/Tools.tsx:22-40 | pressing a calculate button a second time right after the first changes nothing |
| Tools.ZeroRateClick | components/Tools.tsx:27 | with a zero rate the mortgage button leaves the whole page as it is |
| Tools.DefaultClicks | components/Tools.tsx:11-20 | on a fresh page the ROI button shows 20/3 percent, and the mortgage button shows a positive payment that pays the default loan off in 300 months |

## Left out

- The call to the assistant service (model creation, `sendMessage`, the API key) is not modelled. Its result enters as the `ReplyArrived` event with `Success(text)` or `Failure`, and the request records the language and the text that are sent.
- Message ids come from `Date.now()`. They are opaque strings that the caller supplies; only the greeting's fixed id `init` is modelled.
- Rendering is left out: the message list, auto-scroll, `renderMessageText`, the placeholder texts and right-to-left layout are presentation only.
- `console.error` on failure is left out, because it does not affect state.
- `handleQuickReplyClick` has no call site in the component. It is modelled as a standalone operation (`Chat.QuickReply`) and as the `QuickReplyClicked` event.
- Chat.Instruction: it states that the instruction holds the language line, the header and the section list. The template's exact line breaks and indentation are not modelled.
- Sitemap.Route: the route table is a finite map. JavaScript lookups of prototype keys such as `constructor` on a plain object are not modelled.
- The page language is a parameter of each event that reads it. How the language context is provided is not modelled.
- Finance.CalculateMortgage: it computes over exact reals. IEEE rounding, `NaN` and `Infinity` from `Number(...)` parsing, and the `toFixed` display are not modelled.
- Finance.CalculateMortgage: the term is an integer. Fractional loan terms typed into the number field are not modelled.
- Tools.Apply: the inputs are given as already-parsed numbers. `Number(e.target.value)` parsing is not modelled.
- AdUnit.tsx is not part of this model. It is an advertising slot with no state of its own.

=== FILE: chat.dfy ===
/** The chat widget as a state machine. The session holds the message log, the draft
    in the input box, the loading flag and the open flag; every user or network event
    is a pure transition. Sending is split into its two halves: the begin step appends
    the user turn and issues a request to the assistant service, and the completion
    step appends the service's reply (or a failure notice) whenever it arrives. */
module Chat {
  import opened Optional
  import opened Text
  import opened Sitemap

  datatype Role = User | Model

  /** One turn of the conversation. Ids come from the wall clock and are opaque here. */
  datatype Message = Message(id: string, role: Role, text: string)

  /** The widget's state. Besides the component's own state (log, draft, loading flag,
      open flag) it records the calls to the service still awaiting their answer, in
      the order they were issued: each send suspends until its call settles. */
  datatype Session = Session(
    messages: seq<Message>, input: string, isLoading: bool, isOpen: bool, pending: seq<Request>)

  /** The state at mount: closed, empty log, empty draft, not loading, no call out. */
  const Initial: Session := Session([], "", false, false, [])

  /** The id given to the seeded greeting. */
  const GreetingId: string := "init"

  /** The outcome of one call to the assistant service. */
  datatype Reply = Success(text: string) | Failure

  /** What is sent to the assistant service: the user's text, with the instruction
      `Instruction(lang)` built for the page language of the send. */
  datatype Request = Request(lang: Lang, message: string)

  /** `a` is an initial part of `b`: nothing in `a` was changed or removed in `b`. */
  predicate IsPrefix(a: seq<Message>, b: seq<Message>) {
    |a| <= |b| && a == b[..|a|]
  }

  lemma PrefixTransitive(a: seq<Message>, b: seq<Message>, c: seq<Message>)
    requires IsPrefix(a, b) && IsPrefix(b, c)
    ensures IsPrefix(a, c)
  {
    assert c[..|b|][..|a|] == c[..|a|];
  }

  // ---------------------------------------------------------------------------
  // The instruction sent with every request
  // ---------------------------------------------------------------------------

  const InstructionIntro: string :=
    "You are a helpful real estate assistant on the 'Immobilier Info' website.\n"
  const InstructionTask: string :=
    "\nAlways respond to user questions with clear and concise answers in the current language.\n"
    + "At the very end of your response, leave a blank line and then strictly append exactly "
    + "this list of quick navigation suggestions titled \""
  const InstructionList: string := "\":\n"
  const InstructionClose: string := "\n\nDo not invent links. Just list the names."

  /** The line of the instruction that names the language by its code. */
  function LanguageLine(lang: Lang): string {
    "Current Language: " + lang.Code() + "."
  }

  /** The instruction for a language. Its language line names that language's code,
      and it embeds that language's quick-reply header and its bulleted list of
      sections. */
  function Instruction(lang: Lang): (r: string)
    ensures Contains(r, "Current Language: " + lang.Code() + ".")
    ensures Contains(r, QuickReplyHeader(lang))
    ensures Contains(r, NavTerms(lang))
  {
    ContainsParts(InstructionIntro, LanguageLine(lang), InstructionTask, QuickReplyHeader(lang),
                  InstructionList, NavTerms(lang), InstructionClose);
    InstructionIntro + LanguageLine(lang) + InstructionTask + QuickReplyHeader(lang)
      + InstructionList + NavTerms(lang) + InstructionClose
  }

  /** Different languages get different instructions: the code in the language line
      already tells them apart. */
  lemma InstructionPerLanguage(a: Lang, b: Lang)
    ensures Instruction(a) == Instruction(b) <==> a == b
  {
    if a != b {
      CodesDiffer(a, b);
      TemplateTellsApart(InstructionIntro, "Current Language: ", a.Code(), b.Code(), ".",
                         InstructionTask, QuickReplyHeader(a), QuickReplyHeader(b),
                         InstructionList, NavTerms(a), NavTerms(b), InstructionClose);
    }
  }

  /** The codes of two languages differ in their first letter. */
  lemma CodesDiffer(a: Lang, b: Lang)
    requires a != b
    ensures 0 < |a.Code()| == |b.Code()| && a.Code()[0] != b.Code()[0]
  {
  }

  /** Two fillings of the template whose codes have the same length but differ in the
      first letter are different texts. */
  lemma TemplateTellsApart(intro: string, tag: string, c1: string, c2: string, stop: string,
                           task: string, h1: string, h2: string, list: string,
                           t1: string, t2: string, close: string)
    requires 0 < |c1| == |c2| && c1[0] != c2[0]
    ensures intro + (tag + c1 + stop) + task + h1 + list + t1 + close
            != intro + (tag + c2 + stop) + task + h2 + list + t2 + close
  {
    var k := |intro| + |tag|;
    assert (intro + (tag + c1 + stop) + task + h1 + list + t1 + close)[k] == c1[0];
    assert (intro + (tag + c2 + stop) + task + h2 + list + t2 + close)[k] == c2[0];
  }

  /** The filled-in pieces of a seven-part template occur in the result. */
  lemma ContainsParts(a: string, b: string, c: string, d: string, e: string, f: string, g: string)
    ensures Contains(a + b + c + d + e + f + g, b)
    ensures Contains(a + b + c + d + e + f + g, d)
    ensures Contains(a + b + c + d + e + f + g, f)
  {
    var r := a + b + c + d + e + f + g;
    assert r == a + b + (c + d + e + f + g);
    ContainsMiddle(a, b, c + d + e + f + g);
    assert r == (a + b + c) + d + (e + f + g);
    ContainsMiddle(a + b + c, d, e + f + g);
    assert r == (a + b + c + d + e) + f + g;
    ContainsMiddle(a + b + c + d + e, f, g);
  }

  // ---------------------------------------------------------------------------
  // Transitions
  // ---------------------------------------------------------------------------

  /** The greeting effect, run whenever the page language is (re)observed: only an
      empty log receives the greeting; a non-empty log is left as it is. */
  function SeedGreeting(s: Session, lang: Lang): (r: Session)
    ensures IsPrefix(s.messages, r.messages) && |r.messages| > 0
    ensures r.input == s.input && r.isLoading == s.isLoading && r.isOpen == s.isOpen
    ensures r.pending == s.pending
    ensures |s.messages| == 0 ==> r.messages == [Message(GreetingId, Model, Greeting(lang))]
    ensures |s.messages| > 0 ==> r == s
  {
    if |s.messages| == 0 then s.(messages := [Message(GreetingId, Model, Greeting(lang))]) else s
  }

  /** The session and the request a send attempt produces. */
  datatype Sent = Sent(session: Session, request: Option<Request>)

  /** The first half of sending. A blank draft is ignored. Otherwise the draft, as
      typed (not trimmed), becomes a user turn, the draft is cleared, the loading
      flag is raised, and a request carrying the same text is issued. The loading
      flag is not consulted: this is what the Enter key runs. */
  function BeginSend(s: Session, id: string, lang: Lang): (r: Sent)
    ensures IsBlank(s.input) ==> r == Sent(s, None)
    ensures !IsBlank(s.input) ==>
              && r.session.messages == s.messages + [Message(id, User, s.input)]
              && r.session.input == ""
              && r.session.isLoading
              && r.session.isOpen == s.isOpen
              && r.request == Some(Request(lang, s.input))
              && r.session.pending == s.pending + [Request(lang, s.input)]
  {
    TrimEmptyIffBlank(s.input);
    if Trim(s.input) == "" then Sent(s, None)
    else
      var turn := Message(id, User, s.input);
      var request := Request(lang, s.input);
      Sent(s.(messages := s.messages + [turn], input := "", isLoading := true,
              pending := s.pending + [request]),
           Some(request))
  }

  /** The second half of sending, when the service answers or fails: one model turn
      is appended, holding the reply text on success, and on failure the Arabic notice
      for Arabic and the English notice otherwise, `lang` being the language of the
      send; the loading flag is lowered, even if another call is still out. The draft
      and the open flag are untouched: a reply lands even in a closed widget. */
  function CompleteSend(s: Session, id: string, lang: Lang, reply: Reply): (r: Session)
    ensures IsPrefix(s.messages, r.messages) && |r.messages| == |s.messages| + 1
    ensures var last := r.messages[|s.messages|];
            && last.id == id && last.role == Model
            && (reply.Success? ==> last.text == reply.text)
            && (reply.Failure? ==> (last.text == ArabicError <==> lang == Ar))
            && (reply.Failure? ==> (last.text == EnglishError <==> lang != Ar))
    ensures !r.isLoading && r.input == s.input && r.isOpen == s.isOpen && r.pending == s.pending
  {
    var text := match reply
      case Success(t) => t
      case Failure => ErrorText(lang);
    s.(messages := s.messages + [Message(id, Model, text)], isLoading := false)
  }

  /** Whether the send button is enabled: not loading and a non-blank draft. */
  predicate SendEnabled(s: Session) {
    !s.isLoading && Trim(s.input) != ""
  }

  lemma SendEnabledIff(s: Session)
    ensures SendEnabled(s) <==> !s.isLoading && !IsBlank(s.input)
  {
    TrimEmptyIffBlank(s.input);
  }

  /** The session and the navigation a click produces. */
  datatype Clicked = Clicked(session: Session, navigate: Option<string>)

  /** A click on a quick reply. The label loses one leading bullet marker and is
      trimmed. A label of the route table navigates to its path and closes the
      widget; any other text becomes the draft, with nothing sent and the widget
      left as it was. The log is never touched. */
  function QuickReply(s: Session, text: string): (r: Clicked)
    ensures var c := CleanLabel(text);
            && (c in Routes ==>
                  && r.navigate == Some(Routes[c])
                  && r.session == s.(isOpen := false))
            && (c !in Routes ==>
                  && r.navigate == None
                  && r.session == s.(input := c))
  {
    var c := CleanLabel(text);
    RouteHitIffKey(c);
    match Route(c)
    case Some(path) => Clicked(s.(isOpen := false), Some(path))
    case None => Clicked(s.(input := c), None)
  }

  /** A click on one of the fixed quick-action buttons: navigate and close. */
  function QuickActionClick(s: Session, action: QuickAction): (r: Clicked)
    ensures r.navigate.Some? && r.navigate.value in Routes.Values
    ensures r.session.messages == s.messages && r.session.input == s.input
    ensures !r.session.isOpen
  {
    ActionLabelsInRoutes(action, En);
    Clicked(s.(isOpen := false), Some(ActionPath(action)))
  }

  /** The toggle button flips the open flag and nothing else. */
  function Toggle(s: Session): (r: Session)
    ensures r.isOpen != s.isOpen
    ensures r.messages == s.messages && r.input == s.input && r.isLoading == s.isLoading
    ensures r.pending == s.pending
  {
    s.(isOpen := !s.isOpen)
  }

  // ---------------------------------------------------------------------------
  // Events and traces
  // ---------------------------------------------------------------------------

  /** Everything that can happen to a mounted widget. Ids and the page language are
      supplied by the environment. A reply names the position, among the calls still
      out, of the call it settles; calls may settle in any order. */
  datatype Event =
    | LanguageSeen(lang: Lang)
    | Typed(text: string)
    | EnterPressed(id: string, lang: Lang)
    | SendClicked(id: string, lang: Lang)
    | ReplyArrived(call: nat, id: string, reply: Reply)
    | QuickReplyClicked(text: string)
    | QuickActionClicked(action: QuickAction)
    | ToggleClicked
  {
    /** The event comes from a control inside the chat window (the input box, the
        send button, a quick-action button), which exists only while it is open. */
    predicate InWindow() {
      Typed? || EnterPressed? || SendClicked? || QuickActionClicked?
    }
  }

  /** The session after an event, with the request and navigation it caused. */
  datatype Effects = Effects(session: Session, request: Option<Request>, navigate: Option<string>)

  /** One event. The controls of the window do nothing while it is closed. The Enter
      key sends without looking at the loading flag; the send button does nothing
      while it is disabled. */
  function Step(s: Session, e: Event): (r: Effects)
    ensures IsPrefix(s.messages, r.session.messages)
    ensures |r.session.messages| <= |s.messages| + 1
    ensures r.request.Some? ==>
              && (e.EnterPressed? || e.SendClicked?)
              && r.session.messages == s.messages + [Message(e.id, User, r.request.value.message)]
    ensures r.request.None? && |r.session.messages| > |s.messages| ==>
              r.session.messages[|s.messages|].role == Model
    ensures r.navigate.Some? ==> !r.session.isOpen
  {
    if e.InWindow() && !s.isOpen then Effects(s, None, None)
    else match e
    case LanguageSeen(lang) => Effects(SeedGreeting(s, lang), None, None)
    case Typed(text) => Effects(s.(input := text), None, None)
    case EnterPressed(id, lang) =>
      var sent := BeginSend(s, id, lang);
      Effects(sent.session, sent.request, None)
    case SendClicked(id, lang) =>
      if SendEnabled(s) then
        var sent := BeginSend(s, id, lang);
        Effects(sent.session, sent.request, None)
      else Effects(s, None, None)
    case ReplyArrived(k, id, reply) =>
      if k < |s.pending| then
        var waiting := s.(pending := Without(s.pending, k));
        Effects(CompleteSend(waiting, id, s.pending[k].lang, reply), None, None)
      else Effects(s, None, None)
    case QuickReplyClicked(text) =>
      var c := QuickReply(s, text);
      Effects(c.session, None, c.navigate)
    case QuickActionClicked(action) =>
      var c := QuickActionClick(s, action);
      Effects(c.session, None, c.navigate)
    case ToggleClicked => Effects(Toggle(s), None, None)
  }

  /** The calls still out once the `k`-th has settled. */
  function Without(q: seq<Request>, k: nat): (r: seq<Request>)
    requires k < |q|
    ensures |r| == |q| - 1
    ensures forall i :: 0 <= i < k ==> r[i] == q[i]
    ensures forall i :: k <= i < |r| ==> r[i] == q[i + 1]
    ensures multiset(r) + multiset{q[k]} == multiset(q)
  {
    assert q == q[..k] + [q[k]] + q[k + 1..];
    q[..k] + q[k + 1..]
  }

  /** The outcome of a whole trace: the final session, every request issued and every
      navigation performed, in order. */
  datatype Outcome = Outcome(session: Session, requests: seq<Request>, navigations: seq<string>)

  /** The events of a trace applied in order by a step function. */
  function Replay(step: (Session, Event) -> Effects, s: Session, events: seq<Event>): Outcome
    decreases |events|
  {
    if events == [] then Outcome(s, [], [])
    else
      var first := step(s, events[0]);
      var rest := Replay(step, first.session, events[1..]);
      Outcome(rest.session,
              (if first.request.Some? then [first.request.value] else []) + rest.requests,
              (if first.navigate.Some? then [first.navigate.value] else []) + rest.navigations)
  }

  /** The widget's behaviour over a trace. */
  function Run(s: Session, events: seq<Event>): Outcome {
    Replay(Step, s, events)
  }

  /** The texts of the user turns of a log, in order. */
  function UserTexts(ms: seq<Message>): seq<string>
    decreases |ms|
  {
    if ms == [] then []
    else
      var last := ms[|ms| - 1];
      UserTexts(ms[..|ms| - 1]) + (if last.role == User then [last.text] else [])
  }

  /** The texts sent to the service by a series of requests, in order. */
  function SentTexts(requests: seq<Request>): seq<string>
    decreases |requests|
  {
    if requests == [] then [] else [requests[0].message] + SentTexts(requests[1..])
  }

  lemma {:induction false} SentTextsConcat(a: seq<Request>, b: seq<Request>)
    ensures SentTexts(a + b) == SentTexts(a) + SentTexts(b)
    decreases |a|
  {
    if a == [] {
      assert a + b == b;
    } else {
      assert (a + b)[0] == a[0];
      assert (a + b)[1..] == a[1..] + b;
      SentTextsConcat(a[1..], b);
    }
  }

  lemma ConcatAssoc(a: seq<string>, b: seq<string>, c: seq<string>)
    ensures (a + b) + c == a + (b + c)
  {
  }

  /** What one step does to the user turns: it adds the text of the request it
      issues, and nothing when it issues none. */
  predicate KeepsTurns(s: Session, r: Effects) {
    UserTexts(r.session.messages)
    == UserTexts(s.messages) + (if r.request.Some? then [r.request.value.message] else [])
  }

  /** A step function that never rewrites or removes a message keeps the log
      append-only over a whole trace. */
  lemma {:induction false} ReplayAppendOnly(step: (Session, Event) -> Effects, s: Session, events: seq<Event>)
    requires forall t: Session, e: Event :: IsPrefix(t.messages, step(t, e).session.messages)
    ensures IsPrefix(s.messages, Replay(step, s, events).session.messages)
    decreases |events|
  {
    if events != [] {
      var first := step(s, events[0]);
      ReplayAppendOnly(step, first.session, events[1..]);
      PrefixTransitive(s.messages, first.session.messages, Replay(step, s, events).session.messages);
    }
  }

  /** A step function whose every step keeps the user turns in step with its
      requests does so over a whole trace. */
  lemma {:induction false} ReplayKeepsTurns(step: (Session, Event) -> Effects, s: Session, events: seq<Event>)
    requires forall t: Session, e: Event :: KeepsTurns(t, step(t, e))
    ensures UserTexts(Replay(step, s, events).session.messages)
            == UserTexts(s.messages) + SentTexts(Replay(step, s, events).requests)
    decreases |events|
  {
    if events != [] {
      var first := step(s, events[0]);
      var rest := Replay(step, first.session, events[1..]);
      var all := Replay(step, s, events);
      var mine := if first.request.Some? then [first.request.value] else [];
      var sent := if first.request.Some? then [first.request.value.message] else [];
      assert KeepsTurns(s, first);
      ReplayKeepsTurns(step, first.session, events[1..]);
      assert all.requests == mine + rest.requests;
      SentTextsConcat(mine, rest.requests);
      assert SentTexts(mine) == sent;
      calc {
        UserTexts(all.session.messages);
        UserTexts(first.session.messages) + SentTexts(rest.requests);
        (UserTexts(s.messages) + sent) + SentTexts(rest.requests);
        { ConcatAssoc(UserTexts(s.messages), sent, SentTexts(rest.requests)); }
        UserTexts(s.messages) + (sent + SentTexts(rest.requests));
        UserTexts(s.messages) + SentTexts(all.requests);
      }
    }
  }

  /** The log is append-only: over any trace, every earlier message stays where it
      was, unchanged. */
  lemma LogAppendOnly(s: Session, events: seq<Event>)
    ensures IsPrefix(s.messages, Run(s, events).session.messages)
  {
    ReplayAppendOnly(Step, s, events);
  }

  /** Appending one message adds its text to the user texts exactly when it is a user turn. */
  lemma UserTextsAppend(ms: seq<Message>, m: Message)
    ensures UserTexts(ms + [m]) == UserTexts(ms) + (if m.role == User then [m.text] else [])
  {
    assert (ms + [m])[..|ms|] == ms;
  }

  /** One event adds to the user turns exactly the text of the request it issues. */
  lemma StepUserTexts(s: Session, e: Event)
    ensures KeepsTurns(s, Step(s, e))
  {
    var step := Step(s, e);
    if |step.session.messages| == |s.messages| {
      assert step.session.messages == s.messages;
    } else {
      var m := step.session.messages[|s.messages|];
      assert step.session.messages == s.messages + [m];
      UserTextsAppend(s.messages, m);
    }
  }

  /** Every request carries the text of a user turn, and every user turn added to the
      log was sent: over any trace, the user turns added are exactly the texts of the
      requests issued, in the same order. */
  lemma UserTurnsAreRequests(s: Session, events: seq<Event>)
    ensures UserTexts(Run(s, events).session.messages)
            == UserTexts(s.messages) + SentTexts(Run(s, events).requests)
  {
    forall t, e ensures KeepsTurns(t, Step(t, e)) {
      StepUserTexts(t, e);
    }
    ReplayKeepsTurns(Step, s, events);
  }

  // ---------------------------------------------------------------------------
  // Send guard, greeting, quick replies
  // ---------------------------------------------------------------------------

  /** The button refuses to send while loading, but the Enter key does not: with a
      request in flight, Enter still appends a user turn and issues a second request. */
  lemma EnterIgnoresLoading(s: Session, id: string, lang: Lang)
    requires s.isOpen && s.isLoading && !IsBlank(s.input)
    ensures Step(s, SendClicked(id, lang)) == Effects(s, None, None)
    ensures var r := Step(s, EnterPressed(id, lang));
            && r.request == Some(Request(lang, s.input))
            && r.session.messages == s.messages + [Message(id, User, s.input)]
  {
    SendEnabledIff(s);
  }

  /** A blank draft is refused by both paths, and nothing changes (the window open or
      not). */
  lemma BlankDraftIgnored(s: Session, id: string, lang: Lang)
    requires IsBlank(s.input)
    ensures Step(s, EnterPressed(id, lang)) == Effects(s, None, None)
    ensures Step(s, SendClicked(id, lang)) == Effects(s, None, None)
  {
    SendEnabledIff(s);
  }

  /** Seeding is idempotent, whatever language the later run observes: once the log
      has its greeting (or any message), language changes never add another. */
  lemma GreetingSeededOnce(s: Session, first: Lang, later: Lang)
    ensures SeedGreeting(SeedGreeting(s, first), later) == SeedGreeting(s, first)
  {
  }

  /** A greeting at the head of the log stays there through any trace. */
  lemma GreetingStaysFirst(s: Session, events: seq<Event>)
    requires |s.messages| > 0
    ensures |Run(s, events).session.messages| > 0
    ensures Run(s, events).session.messages[0] == s.messages[0]
  {
    LogAppendOnly(s, events);
  }

  /** A quick-action button does exactly what clicking its caption as a quick reply
      does, in every language. */
  lemma QuickActionIsQuickReply(s: Session, action: QuickAction, lang: Lang)
    ensures QuickReply(s, ActionLabel(action, lang)) == QuickActionClick(s, action)
  {
    ActionLabelsRouteAlike(action, lang);
    ActionLabelsInRoutes(action, lang);
    RouteHitIffKey(CleanLabel(ActionLabel(action, lang)));
  }

  /** Every bulleted entry of the instruction's list is a one-click navigation, except
      privacy and terms, whose clicks only refill the draft with the section name. */
  lemma NavEntryClick(s: Session, lang: Lang, i: int)
    requires 0 <= i < |NavLines(lang)|
    ensures i < 5 ==> QuickReply(s, NavLines(lang)[i]).navigate == Some(ListedPaths[i])
    ensures i < 5 ==> !QuickReply(s, NavLines(lang)[i]).session.isOpen
    ensures i >= 5 ==> QuickReply(s, NavLines(lang)[i])
                       == Clicked(s.(input := SectionNames(lang)[i]), None)
  {
    NavLinesRouting(lang, i);
    RouteHitIffKey(SectionNames(lang)[i]);
  }

  /** Toggling twice restores the session. */
  lemma ToggleTwice(s: Session)
    ensures Toggle(Toggle(s)) == s
  {
  }

  /** Two sends before the first reply: the second Enter is accepted although the
      first request is still in flight, so two requests are issued and the log gains
      two user turns in a row. */
  lemma DoubleSend(s: Session, first: string, second: string, id1: string, id2: string, lang: Lang)
    requires s.isOpen && !IsBlank(first) && !IsBlank(second)
    ensures var a := Step(s.(input := first), EnterPressed(id1, lang));
            var b := Step(Step(a.session, Typed(second)).session, EnterPressed(id2, lang));
            && a.request == Some(Request(lang, first))
            && a.session.isLoading
            && b.request == Some(Request(lang, second))
            && b.session.messages == s.messages + [Message(id1, User, first), Message(id2, User, second)]
  {
    var s0 := s.(input := first);
    EnterSends(s0, id1, lang);
    var s1 := Step(s0, EnterPressed(id1, lang)).session;
    var s2 := Step(s1, Typed(second)).session;
    assert s2 == s1.(input := second);
    EnterSends(s2, id2, lang);
    assert s2.messages == s.messages + [Message(id1, User, first)];
  }

  /** Enter in the open window with a non-blank draft always sends, whatever the
      loading flag says. */
  lemma EnterSends(s: Session, id: string, lang: Lang)
    requires s.isOpen && !IsBlank(s.input)
    ensures Step(s, EnterPressed(id, lang))
            == Effects(s.(messages := s.messages + [Message(id, User, s.input)], input := "", isLoading := true,
                          pending := s.pending + [Request(lang, s.input)]),
                       Some(Request(lang, s.input)), None)
  {
  }

  /** An enabled send button sends exactly as Enter does: the draft becomes a user
      turn and is requested. */
  lemma SendClickedSends(s: Session, id: string, lang: Lang)
    requires s.isOpen && SendEnabled(s)
    ensures Step(s, SendClicked(id, lang)) == Step(s, EnterPressed(id, lang))
    ensures Step(s, SendClicked(id, lang)).request == Some(Request(lang, s.input))
  {
    SendEnabledIff(s);
  }

  /** The language effect seeds the greeting, whether the window is open or not. */
  lemma LanguageSeenSeeds(s: Session, lang: Lang)
    ensures Step(s, LanguageSeen(lang)) == Effects(SeedGreeting(s, lang), None, None)
  {
    assert !LanguageSeen(lang).InWindow();
  }

  /** The toggle button toggles, whether the window is open or not. */
  lemma ToggleClickedToggles(s: Session)
    ensures Step(s, ToggleClicked) == Effects(Toggle(s), None, None)
  {
    assert !ToggleClicked.InWindow();
  }

  /** A quick-reply click runs the quick-reply handler and performs its navigation. */
  lemma QuickReplyClickedRuns(s: Session, text: string)
    ensures var c := QuickReply(s, text);
            Step(s, QuickReplyClicked(text)) == Effects(c.session, None, c.navigate)
  {
    assert !QuickReplyClicked(text).InWindow();
  }

  /** While the window is closed its controls do nothing. */
  lemma ClosedWindowIgnoresControls(s: Session, e: Event)
    requires !s.isOpen && e.InWindow()
    ensures Step(s, e) == Effects(s, None, None)
  {
  }

  /** A label of the route table, clicked as written, navigates to its path and
      closes the widget. */
  lemma TableLabelNavigates(s: Session, key: string)
    requires key in Routes
    ensures QuickReply(s, key) == Clicked(s.(isOpen := false), Some(Routes[key]))
  {
    RouteKeysAreClean(key);
  }

  /** Free text that is not a table label, has no white space at its ends and does
      not start with a dash becomes the draft as it is, and nothing else changes. */
  lemma FreeTextBecomesDraft(s: Session, text: string)
    requires text !in Routes && IsTrimmed(text) && |text| > 0 && text[0] != '-'
    ensures QuickReply(s, text) == Clicked(s.(input := text), None)
  {
    CleanPlain(text);
    RouteHitIffKey(text);
  }
  // ---------------------------------------------------------------------------
  // Calls to the service
  // ---------------------------------------------------------------------------

  /** A reply settles the call it names: the model turn holds the reply, or the
      failure notice in the language of that call's send, whatever language the page
      shows now; the call is no longer out and the loading flag is lowered. */
  lemma ReplyAnswersCall(s: Session, k: nat, id: string, reply: Reply)
    requires k < |s.pending|
    ensures var r := Step(s, ReplyArrived(k, id, reply));
            && r.request.None? && r.navigate.None?
            && r.session.messages == s.messages + [Message(id, Model, if reply.Success? then reply.text
                                                                     else ErrorText(s.pending[k].lang))]
            && r.session.pending == Without(s.pending, k)
            && !r.session.isLoading
  {
  }

  /** With no call out at that position there is nothing to settle: no reply can put
      a message into the log before it was asked for. */
  lemma ReplyWithoutCallIgnored(s: Session, k: nat, id: string, reply: Reply)
    requires k >= |s.pending|
    ensures Step(s, ReplyArrived(k, id, reply)) == Effects(s, None, None)
  {
  }

  /** While loading, some call is out. */
  predicate LoadingHasCall(s: Session) {
    s.isLoading ==> |s.pending| > 0
  }

  /** Every event keeps the loading flag backed by a call in flight. */
  lemma StepLoadingHasCall(s: Session, e: Event)
    requires LoadingHasCall(s)
    ensures LoadingHasCall(Step(s, e).session)
  {
  }

  /** A step function that keeps a property of the session keeps it over a trace. */
  lemma {:induction false} ReplayKeeps(step: (Session, Event) -> Effects, inv: Session -> bool,
                                       s: Session, events: seq<Event>)
    requires forall t: Session, e: Event :: inv(t) ==> inv(step(t, e).session)
    requires inv(s)
    ensures inv(Replay(step, s, events).session)
    decreases |events|
  {
    if events != [] {
      ReplayKeeps(step, inv, step(s, events[0]).session, events[1..]);
    }
  }

  /** Over any trace from a state that holds it, loading implies a call in flight. */
  lemma LoadingMeansCallOut(s: Session, events: seq<Event>)
    requires LoadingHasCall(s)
    ensures LoadingHasCall(Run(s, events).session)
  {
    forall t: Session, e: Event | LoadingHasCall(t) ensures LoadingHasCall(Step(t, e).session) {
      StepLoadingHasCall(t, e);
    }
    ReplayKeeps(Step, LoadingHasCall, s, events);
  }

  /** The converse fails: after two Enter sends the first reply lowers the loading flag
      although the second call is still out, so once a non-blank draft is typed the
      send button is enabled again with a call in flight. */
  lemma LoadingClearedEarly(s: Session, first: string, second: string, id1: string, id2: string,
                            id3: string, lang: Lang, reply: Reply)
    requires s.isOpen && s.pending == [] && !IsBlank(first) && !IsBlank(second)
    ensures var a := Step(s.(input := first), EnterPressed(id1, lang)).session;
            var b := Step(Step(a, Typed(second)).session, EnterPressed(id2, lang)).session;
            var c := Step(b, ReplyArrived(0, id3, reply)).session;
            && !c.isLoading
            && c.pending == [Request(lang, second)]
            && SendEnabled(c.(input := second))
  {
    var s0 := s.(input := first);
    EnterSends(s0, id1, lang);
    var a := Step(s0, EnterPressed(id1, lang)).session;
    var a2 := Step(a, Typed(second)).session;
    assert a2 == a.(input := second);
    EnterSends(a2, id2, lang);
    var b := Step(a2, EnterPressed(id2, lang)).session;
    assert b.pending == [Request(lang, first), Request(lang, second)];
    ReplyAnswersCall(b, 0, id3, reply);
    var c := Step(b, ReplyArrived(0, id3, reply)).session;
    SendEnabledIff(c.(input := second));
  }

  /** The calls a step leaves out were out before it or are the request it issues. */
  predicate CallsFromRequests(t: Session, r: Effects) {
    multiset(r.session.pending)
    <= multiset(t.pending) + multiset(if r.request.Some? then [r.request.value] else [])
  }

  lemma StepCallsFromRequests(s: Session, e: Event)
    ensures CallsFromRequests(s, Step(s, e))
  {
    if e.ReplyArrived? && e.call < |s.pending| {
      ReplyAnswersCall(s, e.call, e.id, e.reply);
    }
  }

  /** Under a step function whose calls out come from before or from its own request,
      the calls out after a trace were out at its start or were requested in it. */
  lemma {:induction false} ReplayCallsBound(step: (Session, Event) -> Effects, s: Session, events: seq<Event>)
    requires forall t: Session, e: Event :: CallsFromRequests(t, step(t, e))
    ensures multiset(Replay(step, s, events).session.pending)
            <= multiset(s.pending) + multiset(Replay(step, s, events).requests)
    decreases |events|
  {
    if events != [] {
      var first := step(s, events[0]);
      var rest := Replay(step, first.session, events[1..]);
      var mine := if first.request.Some? then [first.request.value] else [];
      assert CallsFromRequests(s, first);
      ReplayCallsBound(step, first.session, events[1..]);
      assert Replay(step, s, events).requests == mine + rest.requests;
    }
  }

  /** Every call still out was issued as a request of the trace or was already out
      at its start. */
  lemma CallsWereRequested(s: Session, events: seq<Event>)
    ensures multiset(Run(s, events).session.pending) <= multiset(s.pending) + multiset(Run(s, events).requests)
  {
    forall t: Session, e: Event ensures CallsFromRequests(t, Step(t, e)) {
      StepCallsFromRequests(t, e);
    }
    ReplayCallsBound(Step, s, events);
  }

  /** A freshly mounted widget greets in the page language, and the greeting stays
      the first message whatever happens next. */
  lemma MountedWidgetGreets(lang: Lang, events: seq<Event>)
    ensures var log := Run(SeedGreeting(Initial, lang), events).session.messages;
            && |log| > 0
            && log[0] == Message(GreetingId, Model, Greeting(lang))
  {
    GreetingStaysFirst(SeedGreeting(Initial, lang), events);
  }
}

=== FILE: finance.dfy ===
/** The two calculators of the tools page, over exact reals: the fixed-rate
    mortgage payment and the rental return on investment. Each calculation is a
    guarded update of an optional result: when its guard fails the previous result,
    empty or not, is kept. */
module Finance {
  import opened Optional

  /** `b` raised to the `n`-th power. */
  function Pow(b: real, n: nat): real
    decreases n
  {
    if n == 0 then 1.0 else b * Pow(b, n - 1)
  }

  /** A growth factor above one grows with every power. */
  lemma {:induction false} PowAboveOne(b: real, n: nat)
    requires b > 1.0 && n >= 1
    ensures Pow(b, n) >= b
    decreases n
  {
    if n > 1 {
      PowAboveOne(b, n - 1);
      var p := Pow(b, n - 1);
      assert b * p >= b * 1.0 by {
        assert b * (p - 1.0) >= 0.0 by {
          MulNonNegative(b, p - 1.0);
        }
      }
    }
  }

  lemma MulNonNegative(a: real, b: real)
    requires a >= 0.0 && b >= 0.0
    ensures a * b >= 0.0
  {
  }

  /** The monthly interest rate of a yearly percentage. */
  function MonthlyRate(ratePercent: real): (i: real)
    ensures i * 1200.0 == ratePercent
  {
    ratePercent / 100.0 / 12.0
  }

  /** The number of monthly payments of a term in whole years. */
  function Payments(termYears: int): (n: int)
    ensures n > 0 <==> termYears >= 1
  {
    termYears * 12
  }

  /** The mortgage guard: a positive principal, a positive monthly rate and at least
      one payment. */
  predicate MortgageApplies(principal: real, ratePercent: real, termYears: int) {
    principal > 0.0 && MonthlyRate(ratePercent) > 0.0 && Payments(termYears) > 0
  }

  /** The guard in the calculator's own inputs: principal and yearly rate above zero
      and a term of at least a year. A zero rate is refused, not treated as an
      interest-free loan. */
  lemma MortgageAppliesIff(principal: real, ratePercent: real, termYears: int)
    ensures MortgageApplies(principal, ratePercent, termYears)
            <==> principal > 0.0 && ratePercent > 0.0 && termYears >= 1
  {
  }

  /** The annuity payment `p·x·i / (x − 1)` with `x = (1 + i)^n`. Under the guard the
      growth factor exceeds one, so the divisor is positive. The payment is more than
      the first month's interest, so the debt shrinks from the first month on. */
  function Payment(principal: real, monthlyRate: real, payments: nat): (pay: real)
    requires principal > 0.0 && monthlyRate > 0.0 && payments >= 1
    ensures pay > principal * monthlyRate
  {
    var x := Pow(1.0 + monthlyRate, payments);
    PowAboveOne(1.0 + monthlyRate, payments);
    PaymentExceedsInterest(principal, monthlyRate, x);
    principal * x * monthlyRate / (x - 1.0)
  }

  /** `p·x·i / (x − 1)` exceeds `p·i` whenever `x > 1`. */
  lemma PaymentExceedsInterest(p: real, i: real, x: real)
    requires p > 0.0 && i > 0.0 && x > 1.0
    ensures p * x * i / (x - 1.0) > p * i
  {
    var q := p * i;
    assert q > 0.0 by {
      MulPositive(p, i);
    }
    assert p * x * i == q * x;
    assert q * x > q * (x - 1.0);
    DivAbove(q * x, q, x - 1.0);
  }

  lemma MulPositive(a: real, b: real)
    requires a > 0.0 && b > 0.0
    ensures a * b > 0.0
  {
  }

  /** `a / d > q` when `a > q·d` and `d > 0`. */
  lemma DivAbove(a: real, q: real, d: real)
    requires d > 0.0 && a > q * d
    ensures a / d > q
  {
    var r := a / d;
    assert r * d == a;
    if r <= q {
      MulMonotone(r, q, d);
    }
  }

  /** Multiplying by a positive number keeps the order. */
  lemma MulMonotone(x: real, y: real, d: real)
    requires x <= y && d > 0.0
    ensures x * d <= y * d
  {
    MulNonNegative(y - x, d);
  }

  /** `calculateMortgage`: under the guard the payment replaces the result;
      otherwise the previous result stays. */
  function CalculateMortgage(principal: real, ratePercent: real, termYears: int, previous: Option<real>)
    : (r: Option<real>)
    ensures !MortgageApplies(principal, ratePercent, termYears) ==> r == previous
    ensures MortgageApplies(principal, ratePercent, termYears) ==>
              && r.Some?
              && Annuity(principal, MonthlyRate(ratePercent),
                         Pow(1.0 + MonthlyRate(ratePercent), Payments(termYears)), r.value)
              && r.value > principal * MonthlyRate(ratePercent)
              && Balance(principal, MonthlyRate(ratePercent), r.value, Payments(termYears)) == 0.0
  {
    if MortgageApplies(principal, ratePercent, termYears) then
      var pay := Payment(principal, MonthlyRate(ratePercent), Payments(termYears));
      PaymentTimesDivisor(principal, MonthlyRate(ratePercent), Payments(termYears));
      PaymentAmortizes(principal, MonthlyRate(ratePercent), Payments(termYears));
      Some(pay)
    else previous
  }

  /** What is still owed after `k` monthly payments of `pay`: each month the debt
      earns the monthly interest and the payment is then taken off. */
  function Balance(principal: real, monthlyRate: real, pay: real, k: nat): real
    decreases k
  {
    if k == 0 then principal
    else Balance(principal, monthlyRate, pay, k - 1) * (1.0 + monthlyRate) - pay
  }

  /** The closed form of the balance `b` after the months that grew the debt by the
      factor `x`: `i·b = i·p·x − pay·(x − 1)`. */
  predicate ClosedForm(p: real, i: real, pay: real, b: real, x: real) {
    i * b == i * p * x - pay * (x - 1.0)
  }

  /** The balance after `k` months obeys the closed form with `x = (1 + i)^k`. */
  lemma {:induction false} BalanceClosedForm(p: real, i: real, pay: real, k: nat)
    ensures ClosedForm(p, i, pay, Balance(p, i, pay, k), Pow(1.0 + i, k))
    decreases k
  {
    if k > 0 {
      BalanceClosedForm(p, i, pay, k - 1);
      ClosedFormStep(p, i, pay, Balance(p, i, pay, k - 1), Pow(1.0 + i, k - 1));
    }
  }

  /** One month keeps the closed form: the balance becomes `b·(1 + i) − pay` and the
      factor `(1 + i)·x`. */
  lemma ClosedFormStep(p: real, i: real, pay: real, b: real, x: real)
    requires ClosedForm(p, i, pay, b, x)
    ensures ClosedForm(p, i, pay, b * (1.0 + i) - pay, (1.0 + i) * x)
  {
    assert (1.0 + i) * (i * b) == (1.0 + i) * (i * p * x - pay * (x - 1.0));
  }

  /** The annuity payment pays the loan off exactly at the last payment. */
  lemma PaymentAmortizes(p: real, i: real, n: nat)
    requires p > 0.0 && i > 0.0 && n >= 1
    ensures Balance(p, i, Payment(p, i, n), n) == 0.0
  {
    PayOffIff(p, i, n, Payment(p, i, n));
  }

  /** The annuity payment is the one and only monthly amount that pays the loan off
      exactly at the last payment. */
  lemma PayOffIff(p: real, i: real, n: nat, pay: real)
    requires p > 0.0 && i > 0.0 && n >= 1
    ensures Balance(p, i, pay, n) == 0.0 <==> pay == Payment(p, i, n)
  {
    PowAboveOne(1.0 + i, n);
    BalanceClosedForm(p, i, pay, n);
    PaymentTimesDivisor(p, i, n);
    PayOffAlgebra(p, i, Pow(1.0 + i, n), pay, Payment(p, i, n), Balance(p, i, pay, n));
  }

  /** The equation that defines the annuity payment `pay` for the growth factor `x`:
      `pay·(x − 1) = p·x·i`. */
  predicate Annuity(p: real, i: real, x: real, pay: real) {
    pay * (x - 1.0) == p * x * i
  }

  /** The payment solves the annuity equation. */
  lemma PaymentTimesDivisor(p: real, i: real, n: nat)
    requires p > 0.0 && i > 0.0 && n >= 1
    ensures Annuity(p, i, Pow(1.0 + i, n), Payment(p, i, n))
  {
    var x := Pow(1.0 + i, n);
    PowAboveOne(1.0 + i, n);
    DivCancel(p * x * i, x - 1.0);
  }

  /** Division by a non-zero number is undone by multiplying back. */
  lemma DivCancel(a: real, d: real)
    requires d != 0.0
    ensures a / d * d == a
  {
  }

  /** The algebra of the pay-off: given the closed form of the final balance `b` and
      the defining equation of the annuity payment `exact`, the balance vanishes
      exactly when `pay` is that payment. */
  lemma PayOffAlgebra(p: real, i: real, x: real, pay: real, exact: real, b: real)
    requires i > 0.0 && x > 1.0
    requires Annuity(p, i, x, exact)
    requires ClosedForm(p, i, pay, b, x)
    ensures b == 0.0 <==> pay == exact
  {
    assert b * i == exact * (x - 1.0) - pay * (x - 1.0);
    CancelPositive(b, 0.0, i);
    CancelPositive(exact, pay, x - 1.0);
  }

  /** A positive factor cancels from both sides of an equation. */
  lemma CancelPositive(a: real, b: real, d: real)
    requires d > 0.0
    ensures a * d == b * d <==> a == b
  {
    if a * d == b * d {
      assert (a - b) * d == 0.0;
    }
  }

  /** The ROI guard: a positive price. */
  predicate RoiApplies(price: real) {
    price > 0.0
  }

  /** `calculateROI`: with a positive price the yearly return, rent less expenses, as
      a percentage of the price replaces the result; otherwise the previous result
      stays. A negative or zero return is a result like any other. */
  function CalculateRoi(price: real, rent: real, expenses: real, previous: Option<real>): (r: Option<real>)
    ensures !RoiApplies(price) ==> r == previous
    ensures RoiApplies(price) ==> r.Some? && r.value * price == (rent - expenses) * 100.0
  {
    if RoiApplies(price) then
      var annualReturn := rent - expenses;
      var roi := annualReturn / price * 100.0;
      assert roi * price == annualReturn / price * price * 100.0;
      Some(roi)
    else previous
  }

  /** The sign of the return follows the comparison of rent and expenses: negative
      exactly when expenses exceed the rent, zero exactly when they are equal, and
      positive exactly when the rent is higher. */
  lemma RoiSign(price: real, rent: real, expenses: real, previous: Option<real>)
    requires price > 0.0
    ensures var roi := CalculateRoi(price, rent, expenses, previous).value;
            && (roi < 0.0 <==> rent < expenses)
            && (roi == 0.0 <==> rent == expenses)
            && (roi > 0.0 <==> rent > expenses)
  {
    var roi := CalculateRoi(price, rent, expenses, previous).value;
    assert roi * price == (rent - expenses) * 100.0;
    SignOfProduct(roi, price);
  }

  /** Multiplying by a positive number keeps the sign. */
  lemma SignOfProduct(a: real, d: real)
    requires d > 0.0
    ensures a < 0.0 <==> a * d < 0.0
    ensures a == 0.0 <==> a * d == 0.0
    ensures a > 0.0 <==> a * d > 0.0
  {
    if a < 0.0 {
      MulPositive(-a, d);
    } else if a > 0.0 {
      MulPositive(a, d);
    }
  }

  /** The calculator's starting figures: a price of 150000, a rent of 12000 and
      expenses of 2000 give a return of 20/3 percent. */
  lemma DefaultRoi()
    ensures CalculateRoi(150000.0, 12000.0, 2000.0, None) == Some(20.0 / 3.0)
  {
    var roi := CalculateRoi(150000.0, 12000.0, 2000.0, None).value;
    assert roi * 150000.0 == 1000000.0;
  }

  /** A zero rate gives no result: whatever was shown before stays. */
  lemma ZeroRateKeepsPrevious(principal: real, termYears: int, previous: Option<real>)
    ensures CalculateMortgage(principal, 0.0, termYears, previous) == previous
  {
  }
}

=== FILE: optional.dfy ===
/** An optional value: the model's stand-in for a JavaScript value that may be `null`
    (a calculator result) or `undefined` (a missing navigation target). */
module Optional {

  datatype Option<+T> = None | Some(value: T)
}

=== FILE: sitemap.dfy ===
/** The chat widget's constant tables: the supported languages, the greeting and
    failure texts, the bulleted list of site sections the assistant is told to echo,
    the label-to-path route table, and the four fixed quick-action buttons. */
module Sitemap {
  import opened Optional
  import opened Text

  /** The site languages the widget distinguishes. */
  datatype Lang = Ar | En | Fr {
    /** The language code written into the assistant's instruction. */
    function Code(): string {
      match this
      case Ar => "ar"
      case En => "en"
      case Fr => "fr"
    }
  }

  /** The greeting seeded into an empty conversation. */
  function Greeting(lang: Lang): string {
    match lang
    case Ar => "مرحبًا بك في Immobilier Info! كيف يمكنني مساعدتك اليوم؟"
    case En => "Welcome to Immobilier Info! How can I help you today?"
    case Fr => "Bienvenue sur Immobilier Info ! Comment puis-je vous aider aujourd'hui ?"
  }

  const ArabicError: string := "عذراً، حدث خطأ. يرجى المحاولة لاحقاً."
  const EnglishError: string := "Sorry, something went wrong. Please try again."

  /** The text shown when the assistant call fails: Arabic for Arabic, English for
      every other language (French included). */
  function ErrorText(lang: Lang): (r: string)
    ensures r == ArabicError <==> lang == Ar
    ensures r == EnglishError <==> lang != Ar
  {
    if lang == Ar then ArabicError else EnglishError
  }

  /** The header above the quick-reply list in the assistant's instruction. */
  function QuickReplyHeader(lang: Lang): string {
    match lang
    case Ar => "الروابط السريعة:"
    case En => "Quick Replies:"
    case Fr => "Réponses rapides :"
  }

  /** The site-section names of one language, in the order of the instruction's list. */
  function SectionNames(lang: Lang): seq<string> {
    match lang
    case Ar => ["الرئيسية", "الدول", "المدن", "المدونة", "من نحن", "سياسة الخصوصية", "الشروط والأحكام"]
    case En => ["Home", "Countries", "Cities", "Blog", "About Us", "Privacy Policy", "Terms & Conditions"]
    case Fr => ["Accueil", "Pays", "Villes", "Blog", "À propos", "Politique de confidentialité", "Termes et conditions"]
  }

  /** Each name as a bulleted line. */
  function Bulleted(names: seq<string>): (r: seq<string>)
    ensures |r| == |names|
    ensures forall i :: 0 <= i < |r| ==> r[i] == Bullet + names[i]
  {
    if names == [] then [] else [Bullet + names[0]] + Bulleted(names[1..])
  }

  /** The bulleted lines of one language's section list. */
  function NavLines(lang: Lang): seq<string> {
    Bulleted(SectionNames(lang))
  }

  /** The bulleted list the assistant is told to append to every answer. */
  function NavTerms(lang: Lang): string {
    JoinLines(NavLines(lang))
  }

  /** The label-to-path table consulted when a quick reply is clicked. */
  const Routes: map<string, string> := map[
    "الرئيسية" := "/", "Home" := "/", "Accueil" := "/",
    "الدول" := "/countries", "Countries" := "/countries", "Pays" := "/countries",
    "المدن" := "/cities", "Cities" := "/cities", "Villes" := "/cities",
    "المدونة" := "/blog", "Blog" := "/blog",
    "من نحن" := "/about", "About Us" := "/about", "À propos" := "/about",
    "اتصل بنا" := "/contact", "Contact Us" := "/contact", "Contact" := "/contact"
  ]

  /** `routes[key]` read as a condition: a hit only when the key is present and its
      path is a non-empty (truthy) string. */
  function Route(key: string): (r: Option<string>)
    ensures r.Some? ==> key in Routes && r.value == Routes[key]
  {
    if key in Routes && Routes[key] != "" then Some(Routes[key]) else None
  }

  /** Every path in the table is truthy, so a lookup hits exactly on the table's keys. */
  lemma RouteHitIffKey(key: string)
    ensures Route(key).Some? <==> key in Routes
  {
  }

  /** Every label in the table is non-empty, has no white space at its ends, does
      not start with a dash, and maps to a truthy path. */
  lemma RouteKeysShape(key: string)
    requires key in Routes
    ensures IsTrimmed(key) && |key| > 0 && key[0] != '-'
    ensures Routes[key] != ""
  {
  }

  /** The labels of the table are already clean: clicking a label exactly as written
      in the table, with or without a bullet marker, finds its own entry. */
  lemma RouteKeysAreClean(key: string)
    requires key in Routes
    ensures CleanLabel(key) == key
    ensures CleanLabel(Bullet + key) == key
    ensures Route(CleanLabel(Bullet + key)) == Some(Routes[key])
  {
    RouteKeysShape(key);
    CleanPlain(key);
  }

  /** Section names carry no white space at their ends. */
  lemma SectionNamesTrimmed(lang: Lang, i: int)
    requires 0 <= i < |SectionNames(lang)|
    ensures IsTrimmed(SectionNames(lang)[i])
  {
    match lang
    case Ar => TrimmedAr(i);
    case En => TrimmedEn(i);
    case Fr => TrimmedFr(i);
  }

  lemma TrimmedAr(i: int)
    requires 0 <= i < |SectionNames(Ar)|
    ensures IsTrimmed(SectionNames(Ar)[i])
  {
  }

  lemma TrimmedEn(i: int)
    requires 0 <= i < |SectionNames(En)|
    ensures IsTrimmed(SectionNames(En)[i])
  {
  }

  lemma TrimmedFr(i: int)
    requires 0 <= i < |SectionNames(Fr)|
    ensures IsTrimmed(SectionNames(Fr)[i])
  {
  }

  /** Section names carry no line feed. */
  lemma SectionNamesSingleLine(lang: Lang, i: int)
    requires 0 <= i < |SectionNames(lang)|
    ensures '\n' !in SectionNames(lang)[i]
  {
    match lang
    case Ar => SingleLineAr(i);
    case En => SingleLineEn(i);
    case Fr => SingleLineFr(i);
  }

  lemma SingleLineAr(i: int)
    requires 0 <= i < |SectionNames(Ar)|
    ensures '\n' !in SectionNames(Ar)[i]
  {
  }

  lemma SingleLineEn(i: int)
    requires 0 <= i < |SectionNames(En)|
    ensures '\n' !in SectionNames(En)[i]
  {
  }

  lemma SingleLineFr(i: int)
    requires 0 <= i < |SectionNames(Fr)|
    ensures '\n' !in SectionNames(Fr)[i]
  {
  }

  /** The echoed list read back line by line gives exactly the bulleted lines. */
  lemma NavTermsLines(lang: Lang)
    ensures SplitLines(NavTerms(lang)) == NavLines(lang)
  {
    var lines := NavLines(lang);
    forall i | 0 <= i < |lines|
      ensures '\n' !in lines[i]
    {
      SectionNamesSingleLine(lang, i);
    }
    SplitJoinLines(lines);
  }

  /** The paths of home, countries, cities, blog and about. */
  const ListedPaths: seq<string> := ["/", "/countries", "/cities", "/blog", "/about"]

  /** Each language lists seven sections. The first five (home, countries, cities,
      blog, about) are labels of the table, with the same path in every language;
      the last two (privacy, terms) are not labels at all. */
  lemma SectionRoutes(lang: Lang, i: int)
    requires 0 <= i < |SectionNames(lang)|
    ensures |SectionNames(lang)| == 7
    ensures Route(SectionNames(lang)[i]) == (if i < 5 then Some(ListedPaths[i]) else None)
  {
    match lang
    case Ar => SectionRoutesAr(i);
    case En => SectionRoutesEn(i);
    case Fr => SectionRoutesFr(i);
  }

  lemma SectionRoutesAr(i: int)
    requires 0 <= i < |SectionNames(Ar)|
    ensures Route(SectionNames(Ar)[i]) == (if i < 5 then Some(ListedPaths[i]) else None)
  {
  }

  lemma SectionRoutesEn(i: int)
    requires 0 <= i < |SectionNames(En)|
    ensures Route(SectionNames(En)[i]) == (if i < 5 then Some(ListedPaths[i]) else None)
  {
  }

  lemma SectionRoutesFr(i: int)
    requires 0 <= i < |SectionNames(Fr)|
    ensures Route(SectionNames(Fr)[i]) == (if i < 5 then Some(ListedPaths[i]) else None)
  {
  }

  /** Clicking a bulleted entry of the list: the first five entries navigate to
      their section's path, and privacy and terms find no route. */
  lemma NavLinesRouting(lang: Lang, i: int)
    requires 0 <= i < |NavLines(lang)|
    ensures |NavLines(lang)| == 7
    ensures CleanLabel(NavLines(lang)[i]) == SectionNames(lang)[i]
    ensures Route(CleanLabel(NavLines(lang)[i])) == (if i < 5 then Some(ListedPaths[i]) else None)
  {
    SectionNamesTrimmed(lang, i);
    CleanBulleted(SectionNames(lang)[i]);
    SectionRoutes(lang, i);
  }

  /** The fixed quick-action buttons shown under the conversation. */
  datatype QuickAction = HomeAction | CountriesAction | BlogAction | ContactAction

  const QuickActions: seq<QuickAction> := [HomeAction, CountriesAction, BlogAction, ContactAction]

  /** The caption of a quick-action button in a language. */
  function ActionLabel(action: QuickAction, lang: Lang): string {
    match action
    case HomeAction => (match lang case Ar => "الرئيسية" case Fr => "Accueil" case En => "Home")
    case CountriesAction => (match lang case Ar => "الدول" case Fr => "Pays" case En => "Countries")
    case BlogAction => (match lang case Ar => "المدونة" case Fr => "Blog" case En => "Blog")
    case ContactAction => (match lang case Ar => "اتصل بنا" case Fr => "Contact" case En => "Contact")
  }

  /** The path a quick-action button navigates to. */
  function ActionPath(action: QuickAction): string {
    match action
    case HomeAction => "/"
    case CountriesAction => "/countries"
    case BlogAction => "/blog"
    case ContactAction => "/contact"
  }

  /** Every button caption is a label of the table, mapped to the button's path. */
  lemma ActionLabelsInRoutes(action: QuickAction, lang: Lang)
    ensures ActionLabel(action, lang) in Routes
    ensures Routes[ActionLabel(action, lang)] == ActionPath(action)
  {
  }

  /** The row of buttons, in order, holds each button once, and every caption of the
      row, in every language, is a label of the table mapped to its button's path. */
  lemma QuickActionRow(lang: Lang)
    ensures |QuickActions| == 4
    ensures forall a: QuickAction :: a in QuickActions
    ensures forall i, j :: 0 <= i < j < |QuickActions| ==> QuickActions[i] != QuickActions[j]
    ensures forall i :: 0 <= i < |QuickActions| ==>
              && ActionLabel(QuickActions[i], lang) in Routes
              && Routes[ActionLabel(QuickActions[i], lang)] == ActionPath(QuickActions[i])
  {
    forall a: QuickAction ensures a in QuickActions {
      match a
      case HomeAction => assert QuickActions[0] == a;
      case CountriesAction => assert QuickActions[1] == a;
      case BlogAction => assert QuickActions[2] == a;
      case ContactAction => assert QuickActions[3] == a;
    }
    forall i | 0 <= i < |QuickActions|
      ensures ActionLabel(QuickActions[i], lang) in Routes
      ensures Routes[ActionLabel(QuickActions[i], lang)] == ActionPath(QuickActions[i])
    {
      ActionLabelsInRoutes(QuickActions[i], lang);
    }
  }

  /** The buttons and the route table agree: a button's caption in any language,
      clicked as a quick reply, routes where the button itself navigates. */
  lemma ActionLabelsRouteAlike(action: QuickAction, lang: Lang)
    ensures Route(CleanLabel(ActionLabel(action, lang))) == Some(ActionPath(action))
  {
    var key := ActionLabel(action, lang);
    ActionLabelsInRoutes(action, lang);
    RouteKeysAreClean(key);
    RouteHitIffKey(key);
  }
}

=== FILE: text.dfy ===
/** String utilities used by the chat widget: ECMAScript `String.prototype.trim`,
    the `replace(/^- /, '')` bullet strip, and splitting text into lines. */
module Text {

  /** The characters ECMAScript's `trim` removes: the WhiteSpace code points (tab,
      vertical tab, form feed, zero width no-break space and the space separators
      U+0020, U+00A0, U+1680, U+2000 to U+200A, U+202F, U+205F, U+3000) and the
      LineTerminator code points (LF, CR, LS, PS). */
  predicate IsSpace(c: char) {
    var n := c as int;
    || 9 <= n <= 13 || n == 32 || n == 0xA0 || n == 0x1680 || 0x2000 <= n <= 0x200A
    || n == 0x2028 || n == 0x2029 || n == 0x202F || n == 0x205F || n == 0x3000 || n == 0xFEFF
  }

  /** Every character of `s` is white space (the empty string included). */
  predicate IsBlank(s: string) {
    forall i :: 0 <= i < |s| ==> IsSpace(s[i])
  }

  /** `s` neither starts nor ends with white space. */
  predicate IsTrimmed(s: string) {
    s == [] || (!IsSpace(s[0]) && !IsSpace(s[|s| - 1]))
  }

  /** The number of white-space characters at the start of `s`. */
  function LeadCount(s: string): (n: nat)
    ensures n <= |s|
    ensures forall i :: 0 <= i < n ==> IsSpace(s[i])
    ensures n == |s| || !IsSpace(s[n])
  {
    if |s| > 0 && IsSpace(s[0]) then LeadCount(s[1..]) + 1 else 0
  }

  /** The number of white-space characters at the end of `s`. */
  function TrailCount(s: string): (n: nat)
    ensures n <= |s|
    ensures forall i :: |s| - n <= i < |s| ==> IsSpace(s[i])
    ensures n == |s| || !IsSpace(s[|s| - n - 1])
  {
    if |s| > 0 && IsSpace(s[|s| - 1]) then TrailCount(s[..|s| - 1]) + 1 else 0
  }

  /** Removes leading white space. */
  function TrimStart(s: string): string {
    s[LeadCount(s)..]
  }

  /** Removes trailing white space. */
  function TrimEnd(s: string): string {
    s[..|s| - TrailCount(s)]
  }

  /** ECMAScript `s.trim()`: white space removed from both ends. What remains is the
      run of `s` between a blank head and a blank tail. */
  function Trim(s: string): (r: string)
    ensures |r| <= |s|
    ensures IsTrimmed(r)
    ensures exists a, b :: 0 <= a <= b <= |s| && r == s[a..b] && IsBlank(s[..a]) && IsBlank(s[b..])
  {
    var t := TrimStart(s);
    var n := TrailCount(t);
    assert n < |t| ==> t[..|t| - n][0] == t[0];
    var a := LeadCount(s);
    var b := |s| - n;
    assert TrimEnd(t) == s[a..b];
    assert IsBlank(s[..a]);
    assert IsBlank(s[b..]) by {
      assert forall i :: 0 <= i < |s| - b ==> s[b..][i] == t[|t| - n + i];
    }
    TrimEnd(t)
  }

  /** A blank string is trimmed away entirely. */
  lemma TrimBlank(s: string)
    requires IsBlank(s)
    ensures Trim(s) == ""
  {
  }

  /** What `trim` keeps of a string that is not blank starts with a character of it
      that is not white space. */
  lemma TrimNotBlank(s: string)
    requires !IsBlank(s)
    ensures Trim(s) != ""
  {
    var k := LeadCount(s);
    var t := TrimStart(s);
    assert t[0] == s[k];
    assert TrailCount(t) < |t|;
  }

  /** A draft is rejected by the send guard exactly when it is blank: `trim` yields
      the empty string iff every character is white space. */
  lemma TrimEmptyIffBlank(s: string)
    ensures Trim(s) == "" <==> IsBlank(s)
  {
    if IsBlank(s) {
      TrimBlank(s);
    } else {
      TrimNotBlank(s);
    }
  }

  /** A string without white space at its ends is left alone by `trim`. */
  lemma TrimOfTrimmed(s: string)
    requires IsTrimmed(s)
    ensures Trim(s) == s
  {
  }

  /** `trim` is idempotent. */
  lemma TrimIdempotent(s: string)
    ensures Trim(Trim(s)) == Trim(s)
  {
    TrimOfTrimmed(Trim(s));
  }

  /** The two-character bullet marker the chat model is asked to put before each entry. */
  const Bullet: string := "- "

  /** `s.replace(/^- /, '')`: removes one bullet marker, and only at the very start. */
  function StripBullet(s: string): (r: string)
    ensures Bullet + r == s || (r == s && !(|s| >= 2 && s[..2] == Bullet))
  {
    if |s| >= 2 && s[..2] == Bullet then s[2..] else s
  }

  /** Exactly one marker is removed: a doubled marker leaves the second in place. */
  lemma StripBulletOnce(t: string)
    ensures StripBullet(Bullet + t) == t
    ensures StripBullet(Bullet + Bullet + t) == Bullet + t
  {
    assert (Bullet + t)[..2] == Bullet;
    assert (Bullet + Bullet + t)[..2] == Bullet;
    assert (Bullet + Bullet + t)[2..] == Bullet + t;
  }

  /** The label cleaning of a quick-reply click: strip the marker, then trim. The
      cleaned label is the unmarked text less a blank head and a blank tail. */
  function CleanLabel(s: string): (r: string)
    ensures IsTrimmed(r)
    ensures var u := StripBullet(s);
            exists a, b :: 0 <= a <= b <= |u| && r == u[a..b] && IsBlank(u[..a]) && IsBlank(u[b..])
  {
    Trim(StripBullet(s))
  }

  /** A bulleted entry whose text has no white space at its ends cleans to that text. */
  lemma CleanBulleted(t: string)
    requires IsTrimmed(t)
    ensures CleanLabel(Bullet + t) == t
  {
    StripBulletOnce(t);
    TrimOfTrimmed(t);
  }

  /** Text with no white space at its ends and no leading dash is its own cleaned
      label, with or without a bullet marker in front. */
  lemma CleanPlain(s: string)
    requires IsTrimmed(s) && |s| > 0 && s[0] != '-'
    ensures CleanLabel(s) == s
    ensures CleanLabel(Bullet + s) == s
  {
    StripBulletNoDash(s);
    TrimOfTrimmed(s);
    CleanBulleted(s);
  }

  /** A leading white-space character is cut off by `trim`. */
  lemma TrimSkipsLeadingSpace(c: char, u: string)
    requires IsSpace(c)
    ensures Trim([c] + u) == Trim(u)
  {
    assert ([c] + u)[1..] == u;
  }

  /** Text that does not start with a dash has no marker to strip. */
  lemma StripBulletNoDash(s: string)
    requires |s| > 0 && s[0] != '-'
    ensures StripBullet(s) == s
  {
    if |s| >= 2 {
      assert s[..2][0] == s[0] != Bullet[0];
    }
  }

  /** A marker followed by text that ends in a non-space character needs no trimming. */
  lemma BulletedTrimmed(t: string)
    requires |t| > 0 && !IsSpace(t[|t| - 1])
    ensures IsTrimmed(Bullet + t)
  {
    var u := Bullet + t;
    assert u[0] == '-' && u[|u| - 1] == t[|t| - 1];
  }

  /** The marker is matched before trimming, so white space in front of the marker
      keeps it: the cleaned label still starts with the dash. */
  lemma IndentedBulletKept(c: char, t: string)
    requires IsSpace(c)
    requires |t| > 0 && !IsSpace(t[|t| - 1])
    ensures CleanLabel([c] + Bullet + t) == Bullet + t
  {
    var u := Bullet + t;
    assert [c] + Bullet + t == [c] + u;
    assert c != '-';
    StripBulletNoDash([c] + u);
    TrimSkipsLeadingSpace(c, u);
    BulletedTrimmed(t);
    TrimOfTrimmed(u);
  }

  /** Joins lines with the line-feed separator. */
  function JoinLines(lines: seq<string>): (r: string)
    requires |lines| > 0
    decreases |lines|
  {
    if |lines| == 1 then lines[0] else lines[0] + "\n" + JoinLines(lines[1..])
  }

  /** `s.split('\n')`: the pieces between line feeds, in order. */
  function SplitLines(s: string): (r: seq<string>)
    ensures |r| > 0
    ensures forall i :: 0 <= i < |r| ==> '\n' !in r[i]
  {
    if s == [] then [""]
    else
      var rest := SplitLines(s[1..]);
      if s[0] == '\n' then [""] + rest
      else [[s[0]] + rest[0]] + rest[1..]
  }

  /** Splitting text that starts with a line without a line feed peels that line off. */
  lemma {:induction false} SplitLinesCons(a: string, b: string)
    requires '\n' !in a
    ensures SplitLines(a + "\n" + b) == [a] + SplitLines(b)
    decreases |a|
  {
    if a == [] {
      assert a + "\n" + b == "\n" + b;
      assert ("\n" + b)[1..] == b;
    } else {
      var s := a + "\n" + b;
      assert s[0] == a[0];
      assert s[1..] == a[1..] + "\n" + b;
      SplitLinesCons(a[1..], b);
      assert [a[0]] + a[1..] == a;
    }
  }

  /** A line without a line feed splits to itself. */
  lemma {:induction false} SplitLinesSingle(a: string)
    requires '\n' !in a
    ensures SplitLines(a) == [a]
    decreases |a|
  {
    if a != [] {
      SplitLinesSingle(a[1..]);
      assert [a[0]] + a[1..] == a;
    }
  }

  /** Splitting undoes joining, provided no line contains the separator. */
  lemma {:induction false} SplitJoinLines(lines: seq<string>)
    requires |lines| > 0
    requires forall i :: 0 <= i < |lines| ==> '\n' !in lines[i]
    ensures SplitLines(JoinLines(lines)) == lines
    decreases |lines|
  {
    if |lines| == 1 {
      SplitLinesSingle(lines[0]);
    } else {
      SplitLinesCons(lines[0], JoinLines(lines[1..]));
      SplitJoinLines(lines[1..]);
    }
  }

  /** The `n` characters of `s` starting at offset `k`. */
  function Piece(s: string, k: int, n: int): string
    requires 0 <= k && 0 <= n && k + n <= |s|
  {
    s[k..k + n]
  }

  /** `t` occurs in `s` as a contiguous piece. */
  predicate Contains(s: string, t: string) {
    exists k :: 0 <= k <= |s| - |t| && Piece(s, k, |t|) == t
  }

  /** The middle piece of a concatenation occurs in it. */
  lemma ContainsMiddle(a: string, t: string, b: string)
    ensures Contains(a + t + b, t)
  {
    assert Piece(a + t + b, |a|, |t|) == t;
  }
}

=== FILE: tools.dfy ===
/** The tools page: the inputs of the two calculators and their optional results.
    Typing into a field replaces that input; a calculate button recomputes its own
    result from the current inputs. A result that is shown stays shown: it can be
    replaced, never cleared. */
module Tools {
  import opened Optional
  import opened Finance

  /** The page state. A result of `None` is the `null` that hides the result box. */
  datatype Page = Page(
    loanAmount: real, interestRate: real, loanTerm: int, monthlyPayment: Option<real>,
    roiPrice: real, roiRent: real, roiExpenses: real, roiResult: Option<real>)

  /** The state at mount: the default figures and no results. */
  const Initial: Page := Page(200000.0, 3.5, 25, None, 150000.0, 12000.0, 2000.0, None)

  /** What the visitor can do on the page. */
  datatype Action =
    | LoanAmountTyped(amount: real)
    | InterestRateTyped(rate: real)
    | LoanTermTyped(years: int)
    | MortgageClicked
    | RoiPriceTyped(price: real)
    | RoiRentTyped(rent: real)
    | RoiExpensesTyped(expenses: real)
    | RoiClicked

  /** The mortgage inputs as they are. */
  predicate SameMortgageInputs(a: Page, b: Page) {
    a.loanAmount == b.loanAmount && a.interestRate == b.interestRate && a.loanTerm == b.loanTerm
  }

  /** The ROI inputs as they are. */
  predicate SameRoiInputs(a: Page, b: Page) {
    a.roiPrice == b.roiPrice && a.roiRent == b.roiRent && a.roiExpenses == b.roiExpenses
  }

  /** One action. Typing into a field sets that field and no other input. Only a
      calculate button touches a result, and only its own, computed from its own
      calculator's inputs; typing leaves both results as they were, even when they no
      longer match the inputs. A shown result is never cleared. */
  function Apply(page: Page, action: Action): (r: Page)
    ensures action.LoanAmountTyped? ==>
              && r.loanAmount == action.amount
              && r.interestRate == page.interestRate && r.loanTerm == page.loanTerm
              && SameRoiInputs(r, page)
    ensures action.InterestRateTyped? ==>
              && r.interestRate == action.rate
              && r.loanAmount == page.loanAmount && r.loanTerm == page.loanTerm
              && SameRoiInputs(r, page)
    ensures action.LoanTermTyped? ==>
              && r.loanTerm == action.years
              && r.loanAmount == page.loanAmount && r.interestRate == page.interestRate
              && SameRoiInputs(r, page)
    ensures action.RoiPriceTyped? ==>
              && r.roiPrice == action.price
              && r.roiRent == page.roiRent && r.roiExpenses == page.roiExpenses
              && SameMortgageInputs(r, page)
    ensures action.RoiRentTyped? ==>
              && r.roiRent == action.rent
              && r.roiPrice == page.roiPrice && r.roiExpenses == page.roiExpenses
              && SameMortgageInputs(r, page)
    ensures action.RoiExpensesTyped? ==>
              && r.roiExpenses == action.expenses
              && r.roiPrice == page.roiPrice && r.roiRent == page.roiRent
              && SameMortgageInputs(r, page)
    ensures action.MortgageClicked? || action.RoiClicked? ==>
              SameMortgageInputs(r, page) && SameRoiInputs(r, page)
    ensures !action.MortgageClicked? ==> r.monthlyPayment == page.monthlyPayment
    ensures !action.RoiClicked? ==> r.roiResult == page.roiResult
    ensures action.MortgageClicked? ==>
              r.monthlyPayment
              == CalculateMortgage(page.loanAmount, page.interestRate, page.loanTerm, page.monthlyPayment)
    ensures action.RoiClicked? ==>
              r.roiResult == CalculateRoi(page.roiPrice, page.roiRent, page.roiExpenses, page.roiResult)
    ensures page.monthlyPayment.Some? ==> r.monthlyPayment.Some?
    ensures page.roiResult.Some? ==> r.roiResult.Some?
  {
    match action
    case LoanAmountTyped(v) => page.(loanAmount := v)
    case InterestRateTyped(v) => page.(interestRate := v)
    case LoanTermTyped(v) => page.(loanTerm := v)
    case MortgageClicked =>
      page.(monthlyPayment :=
              CalculateMortgage(page.loanAmount, page.interestRate, page.loanTerm, page.monthlyPayment))
    case RoiPriceTyped(v) => page.(roiPrice := v)
    case RoiRentTyped(v) => page.(roiRent := v)
    case RoiExpensesTyped(v) => page.(roiExpenses := v)
    case RoiClicked =>
      page.(roiResult := CalculateRoi(page.roiPrice, page.roiRent, page.roiExpenses, page.roiResult))
  }

  /** The actions of a visit applied in order. */
  function Run(page: Page, actions: seq<Action>): Page
    decreases |actions|
  {
    if actions == [] then page else Run(Apply(page, actions[0]), actions[1..])
  }

  /** Once shown, a result stays shown for the rest of the visit. */
  lemma {:induction false} ResultsNeverRevert(page: Page, actions: seq<Action>)
    ensures page.monthlyPayment.Some? ==> Run(page, actions).monthlyPayment.Some?
    ensures page.roiResult.Some? ==> Run(page, actions).roiResult.Some?
    decreases |actions|
  {
    if actions != [] {
      ResultsNeverRevert(Apply(page, actions[0]), actions[1..]);
    }
  }

  /** Every shown monthly payment is positive. */
  predicate PaymentPositive(page: Page) {
    page.monthlyPayment.Some? ==> page.monthlyPayment.value > 0.0
  }

  /** A shown monthly payment is positive after any visit that starts with none or a
      positive one. */
  lemma {:induction false} PaymentStaysPositive(page: Page, actions: seq<Action>)
    requires PaymentPositive(page)
    ensures PaymentPositive(Run(page, actions))
    decreases |actions|
  {
    if actions != [] {
      var next := Apply(page, actions[0]);
      if actions[0].MortgageClicked? &&
         MortgageApplies(page.loanAmount, page.interestRate, page.loanTerm) {
        var i := MonthlyRate(page.interestRate);
        MulPositive(page.loanAmount, i);
      }
      PaymentStaysPositive(next, actions[1..]);
    }
  }

  /** A calculate button reads only its own calculator's inputs: two pages that agree
      on those inputs and on the shown result show the same result after the click,
      whatever the other calculator holds. */
  lemma ClickReadsOwnInputs(a: Page, b: Page)
    ensures SameMortgageInputs(a, b) && a.monthlyPayment == b.monthlyPayment ==>
              Apply(a, MortgageClicked).monthlyPayment == Apply(b, MortgageClicked).monthlyPayment
    ensures SameRoiInputs(a, b) && a.roiResult == b.roiResult ==>
              Apply(a, RoiClicked).roiResult == Apply(b, RoiClicked).roiResult
  {
  }

  /** A click computes from the inputs alone: a second click right after the first
      changes nothing. */
  lemma ClickTwice(page: Page)
    ensures Apply(Apply(page, MortgageClicked), MortgageClicked) == Apply(page, MortgageClicked)
    ensures Apply(Apply(page, RoiClicked), RoiClicked) == Apply(page, RoiClicked)
  {
  }

  /** With a zero rate the mortgage button does nothing at all: no payment appears on
      a fresh page, and an old payment stays. */
  lemma ZeroRateClick(page: Page)
    requires page.interestRate == 0.0
    ensures Apply(page, MortgageClicked) == page
  {
    ZeroRateKeepsPrevious(page.loanAmount, page.loanTerm, page.monthlyPayment);
  }

  /** On a fresh page the ROI button shows 20/3 percent and the mortgage button shows
      a positive payment that pays the default loan off in 300 months. */
  lemma DefaultClicks()
    ensures Apply(Initial, RoiClicked).roiResult == Some(20.0 / 3.0)
    ensures var pay := Apply(Initial, MortgageClicked).monthlyPayment;
            && pay.Some? && pay.value > 0.0
            && Balance(200000.0, MonthlyRate(3.5), pay.value, 300) == 0.0
  {
    DefaultRoi();
    MortgageAppliesIff(200000.0, 3.5, 25);
    assert Payments(25) == 300;
    MulPositive(200000.0, MonthlyRate(3.5));
  }
}
